=== FILE: README.md ===
# OFE Production site core, modelled in Dafny

This project models the client-side state machine behind the OFE Production
marketing site (`main.js`): the module-level `State` record, the portfolio
filter over the fixed `PORTFOLIO` catalog, the lightbox navigator with its
wrap-around index, the theme and language preferences persisted in local
storage, the translation step that fills `data-i18n` elements, the contact
form's validation, and the start-up sequence that ties them together.

Everything is a pure function over one immutable `Site` value (`site.dfy`):
the `State` record, an abstract view of the document parts the script writes
(root `lang`/`dir`/`data-theme`, the theme toggle label, the title, body
scroll lock, translatable elements, filter buttons, and the lightbox's image
and video elements), and `localStorage` as a `map<string, string>`.

Modules, one per component of the script:

- `Wrappers`, `JsText`: `Option`/`Result`; JavaScript truthiness, the white-space set shared by `\s` and `trim`, and `trim` itself.
- `Catalog`: the ten catalog entries and the order-preserving kind filter.
- `Site`: state, document, storage, and the lightbox invariant.
- `PortfolioFilter`, `LightboxNav`, `Keyboard`: filtering, navigation, and the key handler.
- `Theme`, `I18n`: preferences and translations.
- `ContactForm`: the e-mail pattern and the submit checks.
- `Startup`: the `DOMContentLoaded` sequence.
- `Walkthrough`: filtering and navigating together.

Three behaviours of the script worth stating:

- An unrecognised filter value records the filter but keeps the previous view. It does not fall back to the whole catalog.
- A saved theme is any non-empty string, not only `light`/`dark`. Toggling sends every value other than `light` to `light`.
- The lightbox index is not reset when the filter changes. The lemmas spell out what "next" and "previous" do from a stale index.

## Model

| member | source | states |
|---|---|---|
| JsText.Trim | main.js:558-562 | a trimmed field is empty exactly when the submitted value is all white space, and otherwise neither starts nor ends with white space |
| JsText.TrimPadded | main.js:558-560 | trimming a value padded with white space on both sides gives back the value itself, so exactly the surrounding white space is removed |
| JsText.TrimIdempotent | main.js:558-560 | trimming an already trimmed value changes nothing |
| Catalog.OfKindIsKindSubsequence | main.js:377-379 | `PORTFOLIO.filter(type === k)` is exactly the order-preserving subsequence of entries of kind k: strictly increasing positions covering every entry of that kind and no other |
| Catalog.OfKindIdempotent | main.js:377-379 | filtering an already filtered view by the same kind changes nothing |
| Catalog.KindsPartition | main.js:38-115 | every entry is a photo or a video, so the two kind views together are as long as the catalog |
| Catalog.PortfolioComposition | main.js:38-115 | the shipped catalog is six photos followed by four videos |
| PortfolioFilter.MarkActive | main.js:385-387 | after filtering, a filter button is active exactly when its `data-filter` equals the chosen filter |
| PortfolioFilter.FilterPortfolio | main.js:371-388 | the filter is always recorded; `all` gives the whole catalog, `photo`/`video` the kind views, any other value keeps the old view; index, lightbox, theme, language, translations and storage never change |
| PortfolioFilter.FilteredViewIsKindSubsequence | main.js:374-380 | after `photo` or `video` the view is exactly the catalog's entries of that kind in catalog order |
| PortfolioFilter.FilterIdempotent | main.js:371-381 | applying the same filter twice is applying it once |
| PortfolioFilter.ShippedViews | main.js:376-380 | with the shipped catalog `photo` shows entries 0-5 and `video` entries 6-9 |
| PortfolioFilter.FilterLightboxConsistencyIff | main.js:371-381 | after any filter the lightbox invariant holds exactly when the lightbox is closed or the unchanged index lies inside the new view and the lightbox shows the new view's entry there; a filter that keeps the view, such as an unrecognised one, keeps the invariant either way |
| PortfolioFilter.FilterCanStrandOpenLightbox | main.js:371-381 | filtering while the lightbox is open can leave its index past the end of the new view, breaking the invariant |
| LightboxNav.Open | main.js:394-422 | an out-of-range index leaves the whole site unchanged; an in-range one records the index, opens the lightbox and locks scrolling; a photo is shown with the video hidden and paused, a video is loaded and playing with the image hidden; the lightbox invariant is established |
| LightboxNav.Close | main.js:424-437 | closing hides the lightbox, unlocks scrolling, pauses the video and clears its source; index, state, storage and image are untouched |
| LightboxNav.StepsAreModular | main.js:439-451 | for an in-range index the next and previous indices are the successor and predecessor modulo the view length |
| LightboxNav.Next | main.js:446-451 | next wraps from the last entry to the first; from a stale index past the view it opens the first; on an empty view it changes nothing; it preserves the lightbox invariant; every step that lands in the view is exactly `openLightbox` at the new index, so scrolling stays locked and the hidden media element is untouched |
| LightboxNav.Prev | main.js:439-444 | previous wraps from the first entry to the last; from an index one past the view it opens the last; from further out or on an empty view it changes nothing; every step that lands in the view is exactly `openLightbox` at the new index |
| LightboxNav.PrevAfterNext | main.js:439-451 | for any in-range index, previous after next restores the state exactly, with the lightbox open on the original entry |
| LightboxNav.NextAfterPrev | main.js:439-451 | for any in-range index, next after previous restores the state exactly, with the lightbox open on the original entry |
| LightboxNav.NextTimesWraps | main.js:446-451 | k presses of next from index i land on (i + k) mod n, so n presses go all the way round |
| Keyboard.HandleKeyboard | main.js:631-655 | a closed lightbox ignores every key and only Ctrl/Cmd+D changes anything; an open one closes on Escape, steps on the arrow keys and ignores every other key; the shortcut is exactly a theme toggle, lightbox open or not |
| Theme.ApplyTheme | main.js:273-284 | the chosen theme becomes current, is set on the root and persisted under `ofe-theme`, and the toggle label names the other theme; other storage keys are kept |
| Theme.ToggleTheme | main.js:286-289 | `light` becomes `dark` and every other value becomes `light`, recorded everywhere; as with `applyTheme`, other storage keys and the rest of the page are kept |
| Theme.ToggleInvolution | main.js:286-289 | on a synced site whose theme is `light` or `dark`, toggling twice restores the site exactly |
| Theme.ToggleEventuallyAlternates | main.js:286-289 | from any theme, after the first toggle the site alternates between two states |
| Theme.InitializeTheme | main.js:261-271 | a saved non-empty theme wins, else `dark` on a dark-preferring system, else the current theme; the pick is applied and persisted, and nothing `applyTheme` does not write changes |
| Theme.StartupThemeResolution | main.js:261-271 | from the initial state the theme is saved-value, else `dark`, else `light`, and is stored under `ofe-theme` at once |
| Theme.InitializeThemeIdempotent | main.js:261-276 | a second initialisation reads back the persisted pick and changes nothing |
| I18n.Merge | main.js:184-186 | each fetched table is stored under its own language; other languages keep their tables |
| I18n.LoadTranslations | main.js:173-203 | all three languages loaded adds each table under its code; any failure replaces the whole table with the English-only fallback |
| I18n.Translate | main.js:231-255 | an element's text or placeholder is replaced only when its key has a non-empty translation; every other element keeps its content; the title follows `site.title` the same way |
| I18n.TranslateIdempotent | main.js:236-254 | translating twice from one table is translating once |
| I18n.ApplyTranslations | main.js:231-255 | as written: throws exactly when the current language has no table; otherwise translates the page and leaves state and storage alone |
| I18n.ApplyTranslationsGuarded | main.js:231-255 | corrected: with no table for the current language the site is unchanged; otherwise it agrees with the script as written |
| I18n.ApplyLanguage | main.js:205-229 | an unloaded language changes and persists nothing; a loaded one becomes current, is stored under `ofe-language`, sets `lang`, sets `dir` to `rtl` exactly for `ar`, and translates from its table |
| I18n.ApplyLanguageIdempotent | main.js:205-229 | choosing the same language twice is choosing it once |
| I18n.SwitchKeepsUntranslatedText | main.js:236-241 | after switching from language a to b, an element whose key b lacks still shows a's text |
| I18n.InitializeLanguage | main.js:686-692 | the saved language is used only if it is non-empty and loaded; otherwise the current one stays, and if that is not loaded nothing changes at all; a loaded pick is applied in full (`lang`, `dir`, page text, saved language) with other storage keys kept |
| I18n.InitializeLanguageIdempotent | main.js:686-692 | initialising the language twice is initialising it once, because the first run saves the language it applies |
| ContactForm.IndexOf | main.js:580 | finds the first `@`, or reports that there is none |
| ContactForm.EmailPatternEquivalence | main.js:579-581 | the structural check holds exactly when `^[^\s@]+@[^\s@]+\.[^\s@]+$` matches: no white space, one `@`, a non-empty local part, and a domain with a dot that has a character on each side |
| ContactForm.TrimmedField | main.js:558-560 | a trimmed field is empty exactly when it is missing or all white space |
| ContactForm.HandleFormSubmit | main.js:554-570 | "fill in all fields" exactly when a trimmed field is empty; "invalid email" only when all fields are filled and the trimmed email fails the pattern; otherwise the trimmed values are sent and the email matches the pattern |
| ContactForm.PaddedEmailIsAccepted | main.js:558-570 | a valid address padded with white space fails the pattern itself but passes the form, which sends the bare address, because the check runs after trimming |
| Startup.Prepare | main.js:134-137 | after loading and initialising, the table is the load's result; the theme is the saved one, else `dark` on a dark-preferring system, else the starting one, synced everywhere; the language is the saved one only when non-empty and loaded, else the starting one, and when loaded it is saved, set as `lang`, sets `dir` to `rtl` exactly for `ar`, and translates the page; `dir` is `ltr` for every other loaded language; when the language is not loaded the page changes only in its theme and `ofe-language` is left as it was; no storage key other than `ofe-theme` and `ofe-language` is added or changed; the filter and lightbox state are untouched |
| Startup.StartAsWritten | main.js:131-149 | as written: start-up aborts before binding listeners exactly when the resolved language has no table; either way the page is as preparation left it, because it is already translated by then |
| Startup.StartAsWrittenAbortsIff | main.js:131-149 | as written: start-up aborts exactly when a language file fails and neither the starting nor the saved language is `en` |
| Startup.FirstVisitWithFailedFetchAborts | main.js:189-202 | a first visit with one failed language file aborts start-up |
| Startup.Start | main.js:131-149 | corrected: start-up always binds the listeners and ends on exactly the prepared site, the same site the script as written ends on, so the two differ only in whether the listeners are bound; where the script aborts, that site keeps the page's built-in text |
| Startup.StartAgreesWhereAsWrittenCompletes | main.js:131-149 | wherever the script as written completes start-up, the corrected one ends in the very same site |
| Startup.FirstVisitWithFailedFetchStarts | main.js:189-202 | corrected: that same first visit ends ready on the fallback table, with the default language and the resolved theme; the page keeps its built-in text, and only the root's theme and the toggle label change |
| Walkthrough.VideoViewWalk | main.js:376-451 | after filtering to videos and opening the first, next shows the second video, and four presses come back round to the first |

## Findings

| source | as written | input that shows it | evidently intended | confidence | as-written member | corrected member |
|---|---|---|---|---|---|---|
| main.js:233-238 | `applyTranslations` reads `State.translations[State.currentLanguage]` without a check. The fallback table (main.js:192-201) holds only `en` while the default language is `fr`. After a failed load, `initializeLanguage` keeps `fr`, `applyLanguage('fr')` returns early, and `renderServices` then reads a key of `undefined`. The `try` in the `DOMContentLoaded` handler swallows the TypeError and skips `renderPortfolio` and `setupEventListeners`. | first visit (empty storage), `ar.json` fails to load, page has a services grid | a failed load keeps the page's built-in text and the site stays interactive | high that the step throws; medium on the impact, which needs a `#servicesGrid` on the page; not executed | Startup.StartAsWritten (shown by Startup.FirstVisitWithFailedFetchAborts) | Startup.Start (with I18n.ApplyTranslationsGuarded; agreement in Startup.StartAgreesWhereAsWrittenCompletes) |

## Left out

- DOM look-ups are assumed to find their elements. The early returns when `#lightbox`, `#lightbox-image`, `#lightbox-video` or a grid is missing (main.js:297, 313, 403, 428, 432) are not modelled.
- HTML string building in `renderServices`/`renderPortfolio` and the `parseInt` of `data-index` in `attachPortfolioListeners` are not modelled. They are presentation only.
- Event-listener registration, the language dropdown, the mobile menu and smooth-scroll offsets are not modelled. They are DOM glue.
- `fetch`, `response.json()` and `Promise.all` become a per-language `FetchOutcome`. A JSON file is assumed to be a flat map of strings; `null` or non-string values are not modelled.
- `play()` and `pause()` become a `playing` flag. The rejected-promise case of `play()` (autoplay blocked) is not modelled.
- Focus management is not modelled; body `overflow` is the `scrollLocked` flag.
- The `.current-lang` label (main.js:219-223) is not modelled, because `toUpperCase` has no exact counterpart here.
- Language codes that name inherited object properties (such as `constructor`) are not modelled. The source treats them as loaded; the model treats a language as loaded only when it is a key of the table.
- Loading spinner, success message, notifications, `IntersectionObserver`, `console` output and the `window.OFEProduction` export are not modelled. They are timers, animations and logging.
- Strings are sequences of Unicode scalar values, not UTF-16 code units. Lone surrogates cannot be represented. Other characters get the same verdict from the e-mail pattern either way.
- A form field that yields a `File` instead of a string is not modelled; fields are optional strings.
- The form's `reset()` and the actual send are not modelled; `Sent` carries the trimmed values.

=== FILE: catalog.dfy ===
/** The fixed portfolio catalog (main.js:38-115) and the order-preserving
    kind filter that `filterPortfolio` applies to it. */
module Catalog {
  import opened Wrappers

  datatype MediaKind = Photo | Video

  /** One catalog entry; only videos carry a thumbnail. */
  datatype MediaItem = MediaItem(
    kind: MediaKind,
    src: string,
    thumbnail: Option<string>,
    alt: string,
    title: string,
    category: string)

  function PhotoItem(src: string, alt: string, title: string, category: string): MediaItem {
    MediaItem(Photo, src, None, alt, title, category)
  }

  function VideoItem(src: string, thumbnail: string, alt: string, title: string, category: string)
    : MediaItem
  {
    MediaItem(Video, src, Some(thumbnail), alt, title, category)
  }

  const PexelsQuery := "?auto=compress&cs=tinysrgb&w=600&h=600&dpr=1"

  /** The `PORTFOLIO` constant: six photos followed by four videos. */
  const Portfolio: seq<MediaItem> := [
    PhotoItem("https://images.pexels.com/photos/1024993/pexels-photo-1024993.jpeg" + PexelsQuery,
      "Wedding photography", "Wedding Day", "events"),
    PhotoItem("https://images.pexels.com/photos/1680172/pexels-photo-1680172.jpeg" + PexelsQuery,
      "Portrait photography", "Professional Portrait", "portrait"),
    PhotoItem("https://images.pexels.com/photos/279949/pexels-photo-279949.jpeg" + PexelsQuery,
      "Commercial photography", "Commercial Shoot", "commercial"),
    PhotoItem("https://images.pexels.com/photos/1157394/pexels-photo-1157394.jpeg" + PexelsQuery,
      "Event photography", "Corporate Event", "events"),
    PhotoItem("https://images.pexels.com/photos/1239291/pexels-photo-1239291.jpeg" + PexelsQuery,
      "Portrait session", "Outdoor Portrait", "portrait"),
    PhotoItem("https://images.pexels.com/photos/792199/pexels-photo-792199.jpeg" + PexelsQuery,
      "Product photography", "Product Showcase", "commercial"),
    VideoItem("https://www.w3schools.com/html/mov_bbb.mp4",
      "https://images.pexels.com/photos/3944091/pexels-photo-3944091.jpeg" + PexelsQuery,
      "Store Opening Video", "Grand Opening Coverage", "opening"),
    VideoItem("https://www.w3schools.com/html/movie.mp4",
      "https://images.pexels.com/photos/3585089/pexels-photo-3585089.jpeg" + PexelsQuery,
      "Event Highlights", "Event Highlights Reel", "events"),
    VideoItem("https://www.w3schools.com/html/mov_bbb.mp4",
      "https://images.pexels.com/photos/3394310/pexels-photo-3394310.jpeg" + PexelsQuery,
      "Commercial Video", "Product Commercial", "commercial"),
    VideoItem("files/street.mp4",
      "https://images.pexels.com/photos/374710/pexels-photo-374710.jpeg",
      "Commercial Video", "Product Commercial", "hobby")
  ]

  /** `items.filter(item => item.type === kind)`. */
  function OfKind(items: seq<MediaItem>, kind: MediaKind): (r: seq<MediaItem>)
    ensures |r| <= |items|
    ensures forall i | 0 <= i < |r| :: r[i].kind == kind
  {
    if items == [] then []
    else
      var last := items[|items| - 1];
      OfKind(items[..|items| - 1], kind) + (if last.kind == kind then [last] else [])
  }

  /** The positions in `items` whose entry has kind `kind`, in increasing
      order: the reference against which `OfKind` is characterised. */
  function KindPositions(items: seq<MediaItem>, kind: MediaKind): seq<nat> {
    if items == [] then []
    else
      KindPositions(items[..|items| - 1], kind)
      + (if items[|items| - 1].kind == kind then [|items| - 1] else [])
  }

  /** `OfKind(items, kind)` is exactly the order-preserving subsequence of
      `items` of that kind: its i-th entry is `items[p[i]]` for the strictly
      increasing positions `p`, and `p` lists every position of that kind
      and no other. */
  lemma OfKindIsKindSubsequence(items: seq<MediaItem>, kind: MediaKind)
    ensures var p := KindPositions(items, kind);
      && |OfKind(items, kind)| == |p|
      && (forall i | 0 <= i < |p| :: p[i] < |items| && OfKind(items, kind)[i] == items[p[i]])
      && (forall i, j | 0 <= i < j < |p| :: p[i] < p[j])
      && (forall n: nat :: n in p <==> n < |items| && items[n].kind == kind)
  {
    OfKindAtPositions(items, kind);
    KindPositionsIncreasing(items, kind);
    KindPositionsComplete(items, kind);
  }

  lemma {:induction false} OfKindAtPositions(items: seq<MediaItem>, kind: MediaKind)
    ensures var p := KindPositions(items, kind);
      && |OfKind(items, kind)| == |p|
      && (forall i | 0 <= i < |p| :: p[i] < |items| && OfKind(items, kind)[i] == items[p[i]])
  {
    if items != [] {
      var init := items[..|items| - 1];
      OfKindAtPositions(init, kind);
      var q := KindPositions(init, kind);
      assert forall i | 0 <= i < |q| :: init[q[i]] == items[q[i]];
    }
  }

  lemma {:induction false} KindPositionsIncreasing(items: seq<MediaItem>, kind: MediaKind)
    ensures forall i | 0 <= i < |KindPositions(items, kind)| :: KindPositions(items, kind)[i] < |items|
    ensures forall i, j | 0 <= i < j < |KindPositions(items, kind)| ::
      KindPositions(items, kind)[i] < KindPositions(items, kind)[j]
  {
    if items != [] {
      var init := items[..|items| - 1];
      KindPositionsIncreasing(init, kind);
      var q := KindPositions(init, kind);
      var tail: seq<nat> := if items[|items| - 1].kind == kind then [|items| - 1] else [];
      var p := KindPositions(items, kind);
      assert p == q + tail;
      assert forall i | 0 <= i < |q| :: p[i] == q[i];
      forall i, j | 0 <= i < j < |p| ensures p[i] < p[j] {
        if j < |q| {
          assert p[i] == q[i] && p[j] == q[j];
        } else {
          assert |tail| == 1 && j == |q| && i < |q|;
          assert p[i] == q[i] && p[j] == |items| - 1;
        }
      }
    }
  }

  lemma {:induction false} KindPositionsComplete(items: seq<MediaItem>, kind: MediaKind)
    ensures forall n: nat :: n in KindPositions(items, kind) <==> n < |items| && items[n].kind == kind
  {
    if items != [] {
      var init := items[..|items| - 1];
      KindPositionsComplete(init, kind);
      KindPositionsIncreasing(init, kind);
      forall n: nat ensures n in KindPositions(items, kind) <==> n < |items| && items[n].kind == kind {
        if n < |init| { assert init[n] == items[n]; }
      }
    }
  }

  /** Filtering by a kind twice is filtering once. */
  lemma {:induction false} OfKindIdempotent(items: seq<MediaItem>, kind: MediaKind)
    ensures OfKind(OfKind(items, kind), kind) == OfKind(items, kind)
  {
    if items != [] {
      var init := items[..|items| - 1];
      var last := items[|items| - 1];
      OfKindIdempotent(init, kind);
      OfKindAppend(OfKind(init, kind), if last.kind == kind then [last] else [], kind);
    }
  }

  /** Filtering distributes over concatenation. */
  lemma {:induction false} OfKindAppend(a: seq<MediaItem>, b: seq<MediaItem>, kind: MediaKind)
    ensures OfKind(a + b, kind) == OfKind(a, kind) + OfKind(b, kind)
  {
    if b != [] {
      var b' := b[..|b| - 1];
      assert (a + b)[..|a + b| - 1] == a + b';
      OfKindAppend(a, b', kind);
    } else {
      assert a + b == a;
    }
  }

  /** Every catalog entry is either a photo or a video, so the two kind
      views together account for the whole catalog. */
  lemma {:induction false} KindsPartition(items: seq<MediaItem>)
    ensures |OfKind(items, Photo)| + |OfKind(items, Video)| == |items|
  {
    if items != [] {
      KindsPartition(items[..|items| - 1]);
    }
  }

  /** A view whose entries all have kind `kind` passes the filter whole;
      one with no such entry filters to nothing. */
  lemma {:induction false} OfKindUniform(items: seq<MediaItem>, kind: MediaKind)
    ensures (forall i | 0 <= i < |items| :: items[i].kind == kind) ==> OfKind(items, kind) == items
    ensures (forall i | 0 <= i < |items| :: items[i].kind != kind) ==> OfKind(items, kind) == []
  {
    if items != [] {
      var init := items[..|items| - 1];
      assert forall i | 0 <= i < |init| :: init[i] == items[i];
      OfKindUniform(init, kind);
      assert init + [items[|items| - 1]] == items;
    }
  }

  /** The shipped catalog holds six photos followed by four videos. */
  lemma PortfolioComposition()
    ensures OfKind(Portfolio, Photo) == Portfolio[..6]
    ensures OfKind(Portfolio, Video) == Portfolio[6..]
    ensures |OfKind(Portfolio, Photo)| == 6 && |OfKind(Portfolio, Video)| == 4
  {
    var photos, videos := Portfolio[..6], Portfolio[6..];
    assert Portfolio == photos + videos;
    assert forall i | 0 <= i < |photos| :: photos[i].kind == Photo;
    assert forall i | 0 <= i < |videos| :: videos[i].kind == Video;
    OfKindAppend(photos, videos, Photo);
    OfKindAppend(photos, videos, Video);
    OfKindUniform(photos, Photo);
    OfKindUniform(photos, Video);
    OfKindUniform(videos, Photo);
    OfKindUniform(videos, Video);
  }
}

=== FILE: contact_form.dfy ===
/** Contact-form validation: `isValidEmail` (main.js:579-581) and the
    checks of `handleFormSubmit` (main.js:554-577). */
module ContactForm {
  import opened Wrappers
  import opened JsText

  /** A run of one or more characters of the class `[^\s@]`. */
  predicate Token(t: string) {
    |t| > 0 && forall k | 0 <= k < |t| :: t[k] != '@' && !IsWhitespace(t[k])
  }

  /** The regular expression `^[^\s@]+@[^\s@]+\.[^\s@]+$` matched with the
      `@` at position `i` and the literal dot at position `j`. */
  predicate SplitMatches(s: string, i: int, j: int) {
    && 0 < i && i + 1 < j && j + 1 < |s|
    && s[i] == '@' && s[j] == '.'
    && Token(s[..i]) && Token(s[i + 1..j]) && Token(s[j + 1..])
  }

  /** The regular expression matches `s` for some choice of positions. */
  ghost predicate MatchesEmailPattern(s: string) {
    exists i, j | 0 <= i < j < |s| :: SplitMatches(s, i, j)
  }

  /** The first position of `c` in `s`. */
  function IndexOf(s: string, c: char): (r: Option<nat>)
    ensures r.None? <==> c !in s
    ensures r.Some? ==> r.value < |s| && s[r.value] == c && c !in s[..r.value]
  {
    if s == [] then None
    else if s[0] == c then Some(0)
    else
      match IndexOf(s[1..], c)
      case None => None
      case Some(k) =>
        assert s[..k + 1] == [s[0]] + s[1..][..k];
        Some(k + 1)
  }

  /** The domain has a dot with at least one character on each side. */
  predicate HasInteriorDot(domain: string) {
    |domain| >= 3 && '.' in domain[1..|domain| - 1]
  }

  /** `isValidEmail(email)`, read structurally: no white space, exactly one
      `@`, something before it, and after it a domain with an interior dot. */
  predicate IsValidEmail(s: string) {
    && NoWhitespace(s)
    && match IndexOf(s, '@')
       case None => false
       case Some(p) => p > 0 && '@' !in s[p + 1..] && HasInteriorDot(s[p + 1..])
  }

  /** The structural reading agrees with the regular expression, both ways. */
  lemma EmailPatternEquivalence(s: string)
    ensures IsValidEmail(s) <==> MatchesEmailPattern(s)
  {
    if IsValidEmail(s) {
      ValidEmailMatches(s);
    }
    if MatchesEmailPattern(s) {
      var i, j :| 0 <= i < j < |s| && SplitMatches(s, i, j);
      MatchIsValidEmail(s, i, j);
    }
  }

  lemma ValidEmailMatches(s: string)
    requires IsValidEmail(s)
    ensures MatchesEmailPattern(s)
  {
    var p := IndexOf(s, '@').value;
    var d := s[p + 1..];
    var k :| 1 <= k < |d| - 1 && d[k] == '.' by {
      var m := d[1..|d| - 1];
      var k0 :| 0 <= k0 < |m| && m[k0] == '.';
      assert d[k0 + 1] == '.';
    }
    var j := p + 1 + k;
    assert s[j] == '.';
    assert s[p + 1..j] == d[..k];
    assert s[j + 1..] == d[k + 1..];
    assert forall t | 0 <= t < |d| :: d[t] != '@' by {
      assert '@' !in d;
    }
    assert Token(s[..p]);
    assert Token(s[p + 1..j]);
    assert Token(s[j + 1..]);
    assert SplitMatches(s, p, j);
  }

  lemma MatchIsValidEmail(s: string, i: int, j: int)
    requires 0 <= i < j < |s| && SplitMatches(s, i, j)
    ensures IsValidEmail(s)
  {
    var a, b, c := s[..i], s[i + 1..j], s[j + 1..];
    forall k | 0 <= k < |s| ensures !IsWhitespace(s[k]) {
      if k < i { assert a[k] == s[k]; }
      else if i < k < j { assert b[k - i - 1] == s[k]; }
      else if k > j { assert c[k - j - 1] == s[k]; }
    }
    assert '@' !in s[..i] by {
      assert forall t | 0 <= t < i :: s[..i][t] == a[t];
    }
    assert IndexOf(s, '@') == Some(i);
    var d := s[i + 1..];
    assert d == b + ['.'] + c;
    assert '@' !in d by {
      forall t | 0 <= t < |d| ensures d[t] != '@' {
        if t < |b| { assert d[t] == b[t]; }
        else if t > |b| { assert d[t] == c[t - |b| - 1]; }
      }
    }
    var k := j - i - 1;
    assert d[1..|d| - 1][k - 1] == '.';
  }

  /** A field after `formData.get(name)?.trim()`: a missing field reads as
      the empty string, which is just as falsy as `undefined`. */
  function TrimmedField(v: Option<string>): (r: string)
    ensures r == "" <==> Blank(v)
  {
    match v
    case None => ""
    case Some(x) => Trim(x)
  }

  /** A field that is missing or holds nothing but white space. */
  predicate Blank(v: Option<string>) {
    v.None? || AllWhitespace(v.value)
  }

  const FillInAllFields := "Please fill in all fields"
  const InvalidEmailNotice := "Please enter a valid email address"

  datatype SubmitResult =
    | Rejected(notice: string)
    | Sent(name: string, email: string, message: string)

  /** The validation branch of `handleFormSubmit`: every field must be
      non-blank before the email is even looked at, and only a valid trimmed
      email is sent. A notice about the email therefore never hides a missing
      field, and surrounding white space never makes an email invalid. */
  function HandleFormSubmit(name: Option<string>, email: Option<string>, message: Option<string>)
    : (r: SubmitResult)
    ensures r == Rejected(FillInAllFields) <==> Blank(name) || Blank(email) || Blank(message)
    ensures r == Rejected(InvalidEmailNotice) <==>
      !Blank(name) && !Blank(email) && !Blank(message) && !IsValidEmail(Trim(email.value))
    ensures r.Sent? <==>
      !Blank(name) && !Blank(email) && !Blank(message) && IsValidEmail(Trim(email.value))
    ensures r.Sent? ==>
      r == Sent(Trim(name.value), Trim(email.value), Trim(message.value)) && MatchesEmailPattern(r.email)
  {
    var n, e, m := TrimmedField(name), TrimmedField(email), TrimmedField(message);
    if n == "" || e == "" || m == "" then Rejected(FillInAllFields)
    else if !IsValidEmail(e) then Rejected(InvalidEmailNotice)
    else
      EmailPatternEquivalence(e);
      Sent(n, e, m)
  }

  /** White space around an otherwise valid address is trimmed away before
      the pattern is checked, so the form sends the bare address, although
      the padded string itself does not match. */
  lemma PaddedEmailIsAccepted(name: string, email: string, message: string, pad: string)
    requires !Blank(Some(name)) && !Blank(Some(message))
    requires IsValidEmail(email)
    requires pad != [] && AllWhitespace(pad)
    ensures !IsValidEmail(pad + email + pad)
    ensures HandleFormSubmit(Some(name), Some(pad + email + pad), Some(message))
      == Sent(Trim(name), email, Trim(message))
  {
    assert (pad + email + pad)[0] == pad[0];
    assert email != [] by {
      assert IndexOf(email, '@').Some?;
    }
    TrimPadded(pad, email, pad);
  }
}

=== FILE: i18n.dfy ===
/** The translation system: `loadTranslations` (outcome logic only),
    `applyLanguage`, `applyTranslations` and `initializeLanguage`
    (main.js:173-255, 686-692). */
module I18n {
  import opened Wrappers
  import opened JsText
  import opened Site

  /** What fetching and parsing one language file produced. */
  datatype FetchOutcome = Loaded(messages: Messages) | Failed

  /** The languages requested at start-up, in request order. */
  const Languages: seq<string> := ["en", "ar", "fr"]

  /** The built-in table used when any request fails: English navigation
      labels and the site title only. */
  const FallbackTranslations: Translations := map[
    "en" := map[
      "site.title" := "OFE Production",
      "nav.home" := "Home",
      "nav.services" := "Services",
      "nav.portfolio" := "Portfolio",
      "nav.about" := "About",
      "nav.contact" := "Contact"]]

  predicate AllLoaded(langs: seq<string>, fetch: string -> FetchOutcome) {
    forall i | 0 <= i < |langs| :: fetch(langs[i]).Loaded?
  }

  /** Stores each fetched table under its language, one after another. */
  function Merge(table: Translations, langs: seq<string>, fetch: string -> FetchOutcome): (r: Translations)
    requires AllLoaded(langs, fetch)
    ensures r.Keys == table.Keys + set i | 0 <= i < |langs| :: langs[i]
    ensures forall i | 0 <= i < |langs| :: r[langs[i]] == fetch(langs[i]).messages
    ensures forall l | l in table && l !in langs :: r[l] == table[l]
    decreases |langs|
  {
    if langs == [] then table
    else
      var r := Merge(table[langs[0] := fetch(langs[0]).messages], langs[1..], fetch);
      assert forall i | 1 <= i < |langs| :: langs[i] == langs[1..][i - 1];
      assert (set i | 0 <= i < |langs| :: langs[i])
        == {langs[0]} + set i | 0 <= i < |langs[1..]| :: langs[1..][i];
      r
  }

  /** `loadTranslations()` as a function of each request's outcome: when
      every language loads, each is stored under its code next to what the
      table already held; when any fails, the whole table is replaced by the
      built-in English-only one, discarding whatever did load. */
  function LoadTranslations(prior: Translations, fetch: string -> FetchOutcome): (r: Translations)
    ensures AllLoaded(Languages, fetch) ==>
      && r.Keys == prior.Keys + {"en", "ar", "fr"}
      && r["en"] == fetch("en").messages
      && r["ar"] == fetch("ar").messages
      && r["fr"] == fetch("fr").messages
      && (forall l | l in prior && l !in Languages :: r[l] == prior[l])
    ensures !AllLoaded(Languages, fetch) ==> r == FallbackTranslations && r.Keys == {"en"}
  {
    if AllLoaded(Languages, fetch) then
      var r := Merge(prior, Languages, fetch);
      assert (set i | 0 <= i < |Languages| :: Languages[i]) == {"en", "ar", "fr"} by {
        assert Languages[0] == "en" && Languages[1] == "ar" && Languages[2] == "fr";
      }
      r
    else FallbackTranslations
  }

  /** A key is translated when the table maps it to a non-empty string (the
      value is truthy). */
  predicate HasTranslation(m: Messages, key: Option<string>) {
    key.Some? && key.value in m && m[key.value] != ""
  }

  /** `after` is `before` with every translatable text and placeholder
      replaced by its translation from `m` when it has one, everything else
      as it was, and the title replaced when `site.title` is translated. */
  predicate TranslatedFrom(before: Dom, after: Dom, m: Messages) {
    && |after.elements| == |before.elements|
    && (forall i | 0 <= i < |before.elements| ::
          var e, e' := before.elements[i], after.elements[i];
          && e'.textKey == e.textKey && e'.placeholderKey == e.placeholderKey
          && e'.text == (if HasTranslation(m, e.textKey) then m[e.textKey.value] else e.text)
          && e'.placeholder ==
               (if HasTranslation(m, e.placeholderKey) then m[e.placeholderKey.value] else e.placeholder))
    && after.title == (if HasTranslation(m, Some("site.title")) then m["site.title"] else before.title)
    && after == before.(elements := after.elements, title := after.title)
  }

  function TranslateElement(e: I18nElement, m: Messages): I18nElement {
    e.(text := if HasTranslation(m, e.textKey) then m[e.textKey.value] else e.text,
       placeholder :=
         if HasTranslation(m, e.placeholderKey) then m[e.placeholderKey.value] else e.placeholder)
  }

  /** The element and title updates of `applyTranslations` for a table `m`. */
  function Translate(dom: Dom, m: Messages): (r: Dom)
    ensures TranslatedFrom(dom, r, m)
  {
    var es := seq(|dom.elements|, i requires 0 <= i < |dom.elements| => TranslateElement(dom.elements[i], m));
    dom.(elements := es,
         title := if HasTranslation(m, Some("site.title")) then m["site.title"] else dom.title)
  }

  /** A page already translated from a table is left alone by translating
      it from that table again. */
  lemma TranslatedIsFixed(before: Dom, after: Dom, m: Messages)
    requires TranslatedFrom(before, after, m)
    ensures Translate(after, m) == after
  {
    var again := Translate(after, m);
    assert again.elements == after.elements;
  }

  /** Translating twice with the same table is translating once. */
  lemma TranslateIdempotent(dom: Dom, m: Messages)
    ensures Translate(Translate(dom, m), m) == Translate(dom, m)
  {
    var once := Translate(dom, m);
    var twice := Translate(once, m);
    assert twice.elements == once.elements;
  }

  /** `applyTranslations()` as written: it reads the current language's
      table without checking that one exists, so when the current language
      is not loaded it throws (a TypeError on reading a key of `undefined`). */
  function ApplyTranslations(s: Site): (r: Result<Site, string>)
    ensures s.state.currentLanguage !in s.state.translations <==> r.Failure?
    ensures r.Success? ==>
      && TranslatedFrom(s.dom, r.value.dom, s.state.translations[s.state.currentLanguage])
      && r.value.state == s.state && r.value.storage == s.storage
  {
    var lang := s.state.currentLanguage;
    if lang !in s.state.translations then Failure("TypeError")
    else Success(s.(dom := Translate(s.dom, s.state.translations[lang])))
  }

  /** `applyTranslations()` guarded against a missing table: when the
      current language is not loaded the page is left exactly as it was,
      the same "keep the prior content" policy the function applies to a
      missing key. */
  function ApplyTranslationsGuarded(s: Site): (r: Site)
    ensures s.state.currentLanguage !in s.state.translations ==> r == s
    ensures ApplyTranslations(s).Success? ==> r == ApplyTranslations(s).value
    ensures r.state == s.state && r.storage == s.storage
  {
    match ApplyTranslations(s)
    case Success(t) => t
    case Failure(_) => s
  }

  /** `applyLanguage(lang)`: a language with no loaded table is ignored with
      nothing changed or persisted. Otherwise it becomes current, is saved
      under `ofe-language`, sets the root's `lang`, turns the direction
      right-to-left exactly for Arabic, and translates the page from its
      table. */
  function ApplyLanguage(s: Site, lang: string): (r: Site)
    ensures lang !in s.state.translations ==> r == s
    ensures lang in s.state.translations ==>
      && r.state == s.state.(currentLanguage := lang)
      && r.storage.Keys == s.storage.Keys + {LanguageStorageKey}
      && r.storage[LanguageStorageKey] == lang
      && (forall k | k in s.storage && k != LanguageStorageKey :: r.storage[k] == s.storage[k])
      && r.dom.lang == lang
      && (r.dom.dir == "rtl" <==> lang == "ar")
      && (r.dom.dir == "ltr" <==> lang != "ar")
      && TranslatedFrom(s.dom.(lang := lang, dir := r.dom.dir), r.dom, s.state.translations[lang])
  {
    if lang !in s.state.translations then s
    else
      var dom := s.dom.(lang := lang, dir := if lang == "ar" then "rtl" else "ltr");
      Site(s.state.(currentLanguage := lang),
           Translate(dom, s.state.translations[lang]),
           s.storage[LanguageStorageKey := lang])
  }

  /** Choosing the same language again changes nothing more. */
  lemma ApplyLanguageIdempotent(s: Site, lang: string)
    ensures ApplyLanguage(ApplyLanguage(s, lang), lang) == ApplyLanguage(s, lang)
  {
    if lang in s.state.translations {
      var once := ApplyLanguage(s, lang);
      var dom := s.dom.(lang := lang, dir := once.dom.dir);
      TranslateIdempotent(dom, s.state.translations[lang]);
      assert ApplyLanguage(once, lang).storage == once.storage;
    }
  }

  /** Switching language keeps stale text: an element translated by
      language `a` whose key has no translation in language `b` still shows
      `a`'s text after switching to `b`. */
  lemma SwitchKeepsUntranslatedText(s: Site, a: string, b: string, i: int)
    requires a in s.state.translations && b in s.state.translations
    requires 0 <= i < |s.dom.elements|
    requires HasTranslation(s.state.translations[a], s.dom.elements[i].textKey)
    requires !HasTranslation(s.state.translations[b], s.dom.elements[i].textKey)
    ensures ApplyLanguage(ApplyLanguage(s, a), b).dom.elements[i].text
      == s.state.translations[a][s.dom.elements[i].textKey.value]
  {
  }

  /** `initializeLanguage()`: the saved language becomes current when it is
      a non-empty string with a loaded table; otherwise the current language
      stays. Either way it is then applied, which does nothing at all when
      that language is not loaded. */
  function InitializeLanguage(s: Site): (r: Site)
    ensures var saved := GetItem(s.storage, LanguageStorageKey);
      var usable := Truthy(saved) && saved.value in s.state.translations;
      && (usable ==> r.state.currentLanguage == saved.value)
      && (!usable ==> r.state.currentLanguage == s.state.currentLanguage)
      && (!usable && s.state.currentLanguage !in s.state.translations ==> r == s)
    ensures r.state.currentLanguage in r.state.translations ==>
      GetItem(r.storage, LanguageStorageKey) == Some(r.state.currentLanguage)
    ensures r.state == s.state.(currentLanguage := r.state.currentLanguage)
    // a loaded pick is applied in full: `lang`, `dir`, the page's text and
    // the saved language, with every other storage key kept
    ensures r.state.currentLanguage in s.state.translations ==>
      r == ApplyLanguage(s, r.state.currentLanguage)
  {
    var saved := GetItem(s.storage, LanguageStorageKey);
    var lang :=
      if Truthy(saved) && saved.value in s.state.translations then saved.value
      else s.state.currentLanguage;
    ApplyLanguage(s.(state := s.state.(currentLanguage := lang)), lang)
  }

  /** Initialising the language twice is initialising it once: the first
      run saves the language it applies, and the second reads it back. */
  lemma {:induction false} InitializeLanguageIdempotent(s: Site)
    ensures InitializeLanguage(InitializeLanguage(s)) == InitializeLanguage(s)
  {
    var r := InitializeLanguage(s);
    var lang := r.state.currentLanguage;
    if lang in s.state.translations {
      assert GetItem(r.storage, LanguageStorageKey) == Some(lang);
      assert r.state.translations == s.state.translations;
      ApplyLanguageIdempotent(s, lang);
      assert ApplyLanguage(r, lang) == r;
    }
  }
}

=== FILE: js_text.dfy ===
/** The two pieces of ECMAScript string semantics the model relies on:
    truthiness of a possibly missing string, and the white-space set shared
    by the regular-expression class `\s` and `String.prototype.trim`. */
module JsText {
  import opened Wrappers

  /** A string value is truthy exactly when it is present and non-empty
      (`null`, `undefined` and `''` are falsy). */
  predicate Truthy(v: Option<string>) {
    v.Some? && v.value != ""
  }

  /** The ECMAScript WhiteSpace and LineTerminator code points outside the
      block U+2000..U+200A. */
  const WhitespaceOutsideBlock: set<char> := {
    '\t', '\n', '\U{000B}', '\U{000C}', '\r', ' ', '\U{00A0}', '\U{1680}',
    '\U{2028}', '\U{2029}', '\U{202F}', '\U{205F}', '\U{3000}', '\U{FEFF}'
  }

  /** The ECMAScript WhiteSpace and LineTerminator code points: the class
      `\s` matches exactly these, and `trim` strips exactly these. */
  predicate IsWhitespace(c: char) {
    c in WhitespaceOutsideBlock || '\U{2000}' <= c <= '\U{200A}'
  }

  /** Every character of `s` is white space. */
  predicate AllWhitespace(s: string) {
    forall k | 0 <= k < |s| :: IsWhitespace(s[k])
  }

  /** No character of `s` is white space. */
  predicate NoWhitespace(s: string) {
    forall k | 0 <= k < |s| :: !IsWhitespace(s[k])
  }

  lemma AllWhitespaceConcat(a: string, b: string)
    requires AllWhitespace(a) && AllWhitespace(b)
    ensures AllWhitespace(a + b)
  {
    forall k | 0 <= k < |a + b| ensures IsWhitespace((a + b)[k]) {
      if k < |a| { assert (a + b)[k] == a[k]; } else { assert (a + b)[k] == b[k - |a|]; }
    }
  }

  /** `s` with its leading white space removed. */
  function TrimStart(s: string): (r: string)
    ensures |r| <= |s| && r == s[|s| - |r|..]
    ensures AllWhitespace(s[..|s| - |r|])
    ensures r == [] || !IsWhitespace(r[0])
  {
    if |s| > 0 && IsWhitespace(s[0]) then
      var t := s[1..];
      var r := TrimStart(t);
      assert t[|t| - |r|..] == s[|s| - |r|..];
      assert s[..|s| - |r|] == [s[0]] + t[..|t| - |r|];
      AllWhitespaceConcat([s[0]], t[..|t| - |r|]);
      r
    else
      assert s[..0] == [];
      s
  }

  /** `s` with its trailing white space removed. */
  function TrimEnd(s: string): (r: string)
    ensures |r| <= |s| && r == s[..|r|]
    ensures AllWhitespace(s[|r|..])
    ensures r == [] || !IsWhitespace(r[|r| - 1])
  {
    if |s| > 0 && IsWhitespace(s[|s| - 1]) then
      var t := s[..|s| - 1];
      var r := TrimEnd(t);
      assert t[..|r|] == s[..|r|];
      assert s[|r|..] == t[|r|..] + [s[|s| - 1]];
      AllWhitespaceConcat(t[|r|..], [s[|s| - 1]]);
      r
    else
      assert s[|s|..] == [];
      s
  }

  /** `String.prototype.trim`: the result is no longer than the input, is
      empty exactly when the input is all white space, and otherwise neither
      starts nor ends with white space. `TrimPadded` shows that it removes
      exactly the white space on either side. */
  function Trim(s: string): (r: string)
    ensures |r| <= |s|
    ensures r == [] <==> AllWhitespace(s)
    ensures r != [] ==> !IsWhitespace(r[0]) && !IsWhitespace(r[|r| - 1])
  {
    var a := TrimStart(s);
    var r := TrimEnd(a);
    assert r != [] ==> !IsWhitespace(r[0]) by {
      if r != [] { assert r[0] == a[0]; }
    }
    assert r == [] ==> AllWhitespace(s) by {
      if r == [] {
        assert a == [];
        assert s[..|s|] == s;
      }
    }
    r
  }

  /** Trimming is idempotent. */
  lemma {:induction false} TrimIdempotent(s: string)
    ensures Trim(Trim(s)) == Trim(s)
  {
    var r := Trim(s);
    if r != [] {
      assert TrimStart(r) == r;
      assert TrimEnd(r) == r;
    }
  }

  /** Trimming a string padded with white space on both sides gives back
      the string, provided it neither starts nor ends with white space. */
  lemma {:induction false} TrimPadded(p: string, t: string, q: string)
    requires AllWhitespace(p) && AllWhitespace(q)
    requires t != [] && !IsWhitespace(t[0]) && !IsWhitespace(t[|t| - 1])
    ensures Trim(p + t + q) == t
  {
    TrimStartPadded(p, t + q);
    assert p + t + q == p + (t + q);
    TrimEndPadded(t, q);
  }

  lemma {:induction false} TrimStartPadded(p: string, t: string)
    requires AllWhitespace(p)
    requires t != [] && !IsWhitespace(t[0])
    ensures TrimStart(p + t) == t
  {
    if p != [] {
      assert (p + t)[0] == p[0];
      assert (p + t)[1..] == p[1..] + t;
      TrimStartPadded(p[1..], t);
    } else {
      assert p + t == t;
    }
  }

  lemma {:induction false} TrimEndPadded(t: string, q: string)
    requires AllWhitespace(q)
    requires t != [] && !IsWhitespace(t[|t| - 1])
    ensures TrimEnd(t + q) == t
  {
    if q != [] {
      assert (t + q)[|t + q| - 1] == q[|q| - 1];
      assert (t + q)[..|t + q| - 1] == t + q[..|q| - 1];
      TrimEndPadded(t, q[..|q| - 1]);
    } else {
      assert t + q == t;
    }
  }
}

=== FILE: keyboard.dfy ===
/** `handleKeyboard` (main.js:631-655): Escape and the arrow keys drive the
    lightbox only while it is open; Ctrl+D or Cmd+D toggles the theme at
    any time. */
module Keyboard {
  import opened Site
  import opened LightboxNav
  import opened Theme

  datatype KeyEvent = KeyEvent(key: string, ctrlKey: bool, metaKey: bool)

  /** The global theme shortcut. */
  predicate IsThemeShortcut(e: KeyEvent) {
    (e.ctrlKey || e.metaKey) && e.key == "d"
  }

  /** The lightbox branch of the handler. */
  function LightboxKey(s: Site, key: string): Site {
    if !s.dom.lightbox.active then s
    else if key == "Escape" then Close(s)
    else if key == "ArrowLeft" then Prev(s)
    else if key == "ArrowRight" then Next(s)
    else s
  }

  /** `handleKeyboard(e)`. A closed lightbox ignores every key: its display
      and index stay as they were, and apart from the theme shortcut nothing
      changes at all. An open one closes on Escape, steps back or forward on
      the left and right arrows, and ignores every other key. The shortcut
      flips `light` to `dark` and anything else to `light`, open lightbox or
      not. */
  function HandleKeyboard(s: Site, e: KeyEvent): (r: Site)
    ensures !s.dom.lightbox.active ==>
      && r.dom.lightbox == s.dom.lightbox
      && r.state.currentLightboxIndex == s.state.currentLightboxIndex
      && r.state.filteredPortfolio == s.state.filteredPortfolio
      && (!IsThemeShortcut(e) ==> r == s)
    ensures s.dom.lightbox.active && e.key == "Escape" ==> r == Close(s) && !r.dom.lightbox.active
    ensures s.dom.lightbox.active && e.key == "ArrowLeft" ==> r == Prev(s)
    ensures s.dom.lightbox.active && e.key == "ArrowRight" ==> r == Next(s)
    // the switch has no default: any other key leaves an open lightbox alone
    ensures
      (&& s.dom.lightbox.active && !IsThemeShortcut(e)
       && e.key != "Escape" && e.key != "ArrowLeft" && e.key != "ArrowRight")
      ==> r == s
    // `d` is none of the lightbox keys, so the shortcut is exactly a toggle
    ensures IsThemeShortcut(e) ==> r == ToggleTheme(s)
    ensures IsThemeShortcut(e) ==>
      (r.state.currentTheme == "dark" <==> s.state.currentTheme == "light")
    ensures !IsThemeShortcut(e) ==> r.state.currentTheme == s.state.currentTheme
    ensures LightboxConsistent(s) ==> LightboxConsistent(r)
    ensures IndexWellFormed(s) ==> IndexWellFormed(r)
  {
    var s1 := LightboxKey(s, e.key);
    if IsThemeShortcut(e) then ToggleTheme(s1) else s1
  }
}

=== FILE: lightbox.dfy ===
/** The lightbox navigator: `openLightbox`, `closeLightbox`,
    `showPreviousMedia` and `showNextMedia` (main.js:394-451). The index it
    keeps is relative to the current filtered view. */
module LightboxNav {
  import opened Catalog
  import opened Site

  /** `openLightbox(index)`: ignored unless `index` lies inside the current
      view; otherwise records the index, shows the entry (a photo in the
      image element with the video paused, a video loaded and playing with
      the image hidden), opens the lightbox and locks body scrolling. */
  function Open(s: Site, index: int): (r: Site)
    ensures index < 0 || index >= |s.state.filteredPortfolio| ==> r == s
    ensures 0 <= index < |s.state.filteredPortfolio| ==>
      && r.state == s.state.(currentLightboxIndex := index)
      && r.dom.lightbox.active
      && Shows(r.dom.lightbox, s.state.filteredPortfolio[index])
      && r.dom.scrollLocked
      && r.dom == s.dom.(lightbox := r.dom.lightbox, scrollLocked := true)
      && r.storage == s.storage
    // a photo leaves the video's source in place; a video leaves the image's
    ensures 0 <= index < |s.state.filteredPortfolio| ==>
      match s.state.filteredPortfolio[index].kind
      case Photo => r.dom.lightbox.video.src == s.dom.lightbox.video.src
      case Video => r.dom.lightbox.image == s.dom.lightbox.image.(shown := false)
    ensures 0 <= index < |s.state.filteredPortfolio| ==> LightboxConsistent(r)
    ensures LightboxConsistent(s) ==> LightboxConsistent(r)
    ensures IndexWellFormed(s) ==> IndexWellFormed(r)
  {
    var view := s.state.filteredPortfolio;
    if index < 0 || index >= |view| then s
    else
      var item := view[index];
      var lb := s.dom.lightbox;
      var lb' := match item.kind
        case Photo =>
          Lightbox(true, ImageElement(item.src, item.alt, true), lb.video.(shown := false, playing := false))
        case Video => Lightbox(true, lb.image.(shown := false), VideoElement(item.src, true, true));
      Site(s.state.(currentLightboxIndex := index), s.dom.(lightbox := lb', scrollLocked := true), s.storage)
  }

  /** `closeLightbox()`: hides the lightbox, unlocks scrolling, pauses the
      video and clears its source so nothing keeps playing or loading. The
      index and the image element are left as they were. */
  function Close(s: Site): (r: Site)
    ensures !r.dom.lightbox.active && !r.dom.scrollLocked
    ensures !r.dom.lightbox.video.playing && r.dom.lightbox.video.src == ""
    ensures r.dom.lightbox.image == s.dom.lightbox.image
    ensures r.dom.lightbox.video.shown == s.dom.lightbox.video.shown
    ensures r.dom == s.dom.(lightbox := r.dom.lightbox, scrollLocked := false)
    ensures r.state == s.state && r.storage == s.storage
    ensures LightboxConsistent(r)
  {
    var lb := s.dom.lightbox;
    var lb' := lb.(active := false, video := lb.video.(playing := false, src := ""));
    s.(dom := s.dom.(lightbox := lb', scrollLocked := false))
  }

  /** The index `showNextMedia` asks for in a view of `n` entries. */
  function NextIndex(i: int, n: int): int {
    if i < n - 1 then i + 1 else 0
  }

  /** The index `showPreviousMedia` asks for in a view of `n` entries. */
  function PrevIndex(i: int, n: int): int {
    if i > 0 then i - 1 else n - 1
  }

  /** For an in-range index the two steps are successor and predecessor
      modulo the view length. */
  lemma StepsAreModular(i: int, n: int)
    ensures 0 <= i < n ==> NextIndex(i, n) == (i + 1) % n
    ensures 0 <= i < n ==> PrevIndex(i, n) == (i + n - 1) % n
  {
    if 0 <= i < n {
      if i < n - 1 {
        ModUnique(i + 1, n, 0, i + 1);
      } else {
        ModUnique(i + 1, n, 1, 0);
      }
      if i > 0 {
        ModUnique(i + n - 1, n, 1, i - 1);
      } else {
        ModUnique(i + n - 1, n, 0, n - 1);
      }
    }
  }

  /** `showNextMedia()`: opens the following entry, wrapping from the last
      to the first; from an index at or past the end of a shrunken view it
      opens the first; on an empty view it does nothing. */
  function Next(s: Site): (r: Site)
    ensures var n := |s.state.filteredPortfolio|; var i := s.state.currentLightboxIndex;
      && (n == 0 ==> r == s)
      && (0 <= i < n ==> r.state.currentLightboxIndex == (i + 1) % n)
      && (i >= n > 0 ==> r.state.currentLightboxIndex == 0)
      && (n > 0 && i >= 0 ==>
            && r.dom.lightbox.active
            && Shows(r.dom.lightbox, s.state.filteredPortfolio[r.state.currentLightboxIndex]))
      // every step that lands in the view is an `openLightbox` there
      && (n > 0 && i >= 0 ==> r == Open(s, r.state.currentLightboxIndex))
    ensures r.state == s.state.(currentLightboxIndex := r.state.currentLightboxIndex)
    ensures r.storage == s.storage
    ensures r.dom == s.dom.(lightbox := r.dom.lightbox, scrollLocked := r.dom.scrollLocked)
    ensures LightboxConsistent(s) ==> LightboxConsistent(r)
    ensures IndexWellFormed(s) ==> IndexWellFormed(r)
  {
    var n := |s.state.filteredPortfolio|;
    var i := s.state.currentLightboxIndex;
    StepsAreModular(i, n);
    Open(s, NextIndex(i, n))
  }

  /** `showPreviousMedia()`: opens the preceding entry, wrapping from the
      first to the last. From an index exactly one past the end of a
      shrunken view it opens the last entry; from an index further out it
      asks for another out-of-range index and so does nothing; on an empty
      view it does nothing. */
  function Prev(s: Site): (r: Site)
    ensures var n := |s.state.filteredPortfolio|; var i := s.state.currentLightboxIndex;
      && (n == 0 ==> r == s)
      && (0 <= i < n ==> r.state.currentLightboxIndex == (i + n - 1) % n)
      && (i == n > 0 ==> r.state.currentLightboxIndex == n - 1)
      && (i > n ==> r == s)
      && (n > 0 && 0 <= i <= n ==>
            && r.dom.lightbox.active
            && Shows(r.dom.lightbox, s.state.filteredPortfolio[r.state.currentLightboxIndex]))
      && (n > 0 && 0 <= i <= n ==> r == Open(s, r.state.currentLightboxIndex))
    ensures r.state == s.state.(currentLightboxIndex := r.state.currentLightboxIndex)
    ensures r.storage == s.storage
    ensures r.dom == s.dom.(lightbox := r.dom.lightbox, scrollLocked := r.dom.scrollLocked)
    ensures LightboxConsistent(s) ==> LightboxConsistent(r)
    ensures IndexWellFormed(s) ==> IndexWellFormed(r)
  {
    var n := |s.state.filteredPortfolio|;
    var i := s.state.currentLightboxIndex;
    StepsAreModular(i, n);
    Open(s, PrevIndex(i, n))
  }

  /** Going forward then back returns to the same entry, across the wrap
      boundary too: the state is restored exactly and the lightbox is open on
      the original entry. */
  lemma {:induction false} PrevAfterNext(s: Site)
    requires 0 <= s.state.currentLightboxIndex < |s.state.filteredPortfolio|
    ensures Prev(Next(s)).state == s.state
    ensures Prev(Next(s)).storage == s.storage
    ensures Prev(Next(s)).dom.lightbox.active
    ensures Shows(Prev(Next(s)).dom.lightbox, s.state.filteredPortfolio[s.state.currentLightboxIndex])
  {
    var n := |s.state.filteredPortfolio|;
    var i := s.state.currentLightboxIndex;
    StepsAreModular(i, n);
    StepsAreModular(NextIndex(i, n), n);
  }

  /** Going back then forward returns to the same entry. */
  lemma {:induction false} NextAfterPrev(s: Site)
    requires 0 <= s.state.currentLightboxIndex < |s.state.filteredPortfolio|
    ensures Next(Prev(s)).state == s.state
    ensures Next(Prev(s)).storage == s.storage
    ensures Next(Prev(s)).dom.lightbox.active
    ensures Shows(Next(Prev(s)).dom.lightbox, s.state.filteredPortfolio[s.state.currentLightboxIndex])
  {
    var n := |s.state.filteredPortfolio|;
    var i := s.state.currentLightboxIndex;
    StepsAreModular(i, n);
    StepsAreModular(PrevIndex(i, n), n);
  }

  /** `k` presses of "next". */
  function NextTimes(s: Site, k: nat): Site {
    if k == 0 then s else Next(NextTimes(s, k - 1))
  }

  lemma {:induction false} MulAtLeast(d: int, n: int)
    requires d >= 1 && n > 0
    ensures d * n >= n
  {
    if d > 1 {
      MulAtLeast(d - 1, n);
      assert d * n == (d - 1) * n + n;
    }
  }

  /** Remainders are unique: `q * n + r` with `0 <= r < n` leaves `r`. */
  lemma ModUnique(x: int, n: int, q: int, r: int)
    requires n > 0 && 0 <= r < n && x == q * n + r
    ensures x % n == r
  {
    var q0, r0 := x / n, x % n;
    assert (q - q0) * n == r0 - r;
    if q > q0 {
      MulAtLeast(q - q0, n);
    } else if q < q0 {
      MulAtLeast(q0 - q, n);
    }
  }

  lemma ModSucc(a: int, n: int)
    requires a >= 0 && n > 0
    ensures (a % n + 1) % n == (a + 1) % n
  {
    var q, j := a / n, a % n;
    if j + 1 < n {
      ModUnique(a + 1, n, q, j + 1);
      ModUnique(j + 1, n, 0, j + 1);
    } else {
      ModUnique(a + 1, n, q + 1, 0);
      ModUnique(j + 1, n, 1, 0);
    }
  }

  /** From an in-range index, `k` presses of "next" land on `(i + k) mod n`;
      in particular `n` presses go all the way round. */
  lemma {:induction false} NextTimesWraps(s: Site, k: nat)
    requires 0 <= s.state.currentLightboxIndex < |s.state.filteredPortfolio|
    ensures NextTimes(s, k).state
      == s.state.(currentLightboxIndex := (s.state.currentLightboxIndex + k) % |s.state.filteredPortfolio|)
  {
    var n := |s.state.filteredPortfolio|;
    var i := s.state.currentLightboxIndex;
    if k == 0 {
      ModUnique(i, n, 0, i);
    } else {
      NextTimesWraps(s, k - 1);
      var t := NextTimes(s, k - 1);
      var j := (i + k - 1) % n;
      assert t.state == s.state.(currentLightboxIndex := j);
      assert 0 <= j < |t.state.filteredPortfolio|;
      var u := Next(t);
      assert u.state == t.state.(currentLightboxIndex := (j + 1) % n);
      ModSucc(i + k - 1, n);
      assert u == NextTimes(s, k);
    }
  }
}

=== FILE: portfolio_filter.dfy ===
/** `filterPortfolio` (main.js:371-388): replaces the derived view with the
    catalog filtered by kind, and marks the matching filter button. */
module PortfolioFilter {
  import opened Wrappers
  import opened Catalog
  import opened Site

  /** The filter values `filterPortfolio` recognises. */
  predicate Recognised(filter: string) {
    filter == "all" || filter == "photo" || filter == "video"
  }

  /** The kind a recognised per-kind filter selects. */
  function KindOf(filter: string): Option<MediaKind> {
    if filter == "photo" then Some(Photo)
    else if filter == "video" then Some(Video)
    else None
  }

  /** Each button's `active` class says whether it is the chosen filter. */
  function MarkActive(buttons: seq<FilterButton>, filter: string): (r: seq<FilterButton>)
    ensures |r| == |buttons|
    ensures forall i | 0 <= i < |r| ::
      r[i].filter == buttons[i].filter && (r[i].active <==> buttons[i].filter == filter)
  {
    seq(|buttons|, i requires 0 <= i < |buttons| => buttons[i].(active := buttons[i].filter == filter))
  }

  /** `filterPortfolio(filter)`: always records the filter and marks its
      button; the view becomes the whole catalog for `all` and the catalog's
      photos or videos for `photo` / `video`, and any other value leaves the
      view as it was. The lightbox index, the lightbox itself, theme,
      language, translations and storage are never touched. */
  function FilterPortfolio(s: Site, filter: string): (r: Site)
    ensures r.state.currentFilter == filter
    ensures filter == "all" ==> r.state.filteredPortfolio == Portfolio
    ensures KindOf(filter).Some? ==> r.state.filteredPortfolio == OfKind(Portfolio, KindOf(filter).value)
    ensures !Recognised(filter) ==> r.state.filteredPortfolio == s.state.filteredPortfolio
    ensures r.state == s.state.(currentFilter := filter, filteredPortfolio := r.state.filteredPortfolio)
    ensures |r.dom.filterButtons| == |s.dom.filterButtons|
    ensures forall i | 0 <= i < |r.dom.filterButtons| ::
      r.dom.filterButtons[i].filter == s.dom.filterButtons[i].filter
      && (r.dom.filterButtons[i].active <==> s.dom.filterButtons[i].filter == filter)
    ensures r.dom == s.dom.(filterButtons := r.dom.filterButtons)
    ensures r.storage == s.storage
  {
    var view :=
      if filter == "all" then Portfolio
      else if filter == "photo" then OfKind(Portfolio, Photo)
      else if filter == "video" then OfKind(Portfolio, Video)
      else s.state.filteredPortfolio;
    Site(s.state.(currentFilter := filter, filteredPortfolio := view),
         s.dom.(filterButtons := MarkActive(s.dom.filterButtons, filter)),
         s.storage)
  }

  /** For `photo` and `video` the view is exactly the order-preserving
      subsequence of the catalog of that kind: entry `i` of the view is the
      catalog entry at position `p[i]`, the positions increase, and they are
      precisely the catalog positions holding that kind. */
  lemma FilteredViewIsKindSubsequence(s: Site, filter: string)
    requires KindOf(filter).Some?
    ensures var view := FilterPortfolio(s, filter).state.filteredPortfolio;
      var p := KindPositions(Portfolio, KindOf(filter).value);
      && |view| == |p|
      && (forall i | 0 <= i < |p| :: p[i] < |Portfolio| && view[i] == Portfolio[p[i]])
      && (forall i, j | 0 <= i < j < |p| :: p[i] < p[j])
      && (forall n: nat :: n in p <==> n < |Portfolio| && Portfolio[n].kind == KindOf(filter).value)
  {
    OfKindIsKindSubsequence(Portfolio, KindOf(filter).value);
  }

  /** Applying the same filter twice is applying it once. */
  lemma FilterIdempotent(s: Site, filter: string)
    ensures FilterPortfolio(FilterPortfolio(s, filter), filter) == FilterPortfolio(s, filter)
  {
  }

  /** With the shipped catalog: `photo` shows the six photos and `video` the
      four videos, each in catalog order. */
  lemma ShippedViews(s: Site)
    ensures FilterPortfolio(s, "photo").state.filteredPortfolio == Portfolio[..6]
    ensures FilterPortfolio(s, "video").state.filteredPortfolio == Portfolio[6..]
  {
    PortfolioComposition();
  }

  /** Filtering never touches the lightbox or its index, so afterwards the
      lightbox invariant holds exactly when the lightbox is closed, or the
      old index lies inside the new view and the lightbox still shows the
      new view's entry at that index. A filter that leaves the view as it
      was, such as an unrecognised one, therefore keeps the invariant. */
  lemma FilterLightboxConsistencyIff(s: Site, filter: string)
    ensures var r := FilterPortfolio(s, filter);
      var i := s.state.currentLightboxIndex;
      var view := r.state.filteredPortfolio;
      LightboxConsistent(r) <==>
        (!s.dom.lightbox.active || (0 <= i < |view| && Shows(s.dom.lightbox, view[i])))
    ensures FilterPortfolio(s, filter).state.filteredPortfolio == s.state.filteredPortfolio ==>
      (LightboxConsistent(FilterPortfolio(s, filter)) <==> LightboxConsistent(s))
    ensures !Recognised(filter) ==>
      (LightboxConsistent(FilterPortfolio(s, filter)) <==> LightboxConsistent(s))
  {
  }

  /** Filtering while the lightbox is open can strand it: open on the ninth
      entry of the full catalog, then narrow the view to the six photos, and
      the open lightbox's index points past the end of the view. */
  lemma FilterCanStrandOpenLightbox(dom: Dom)
    requires dom.lightbox.active
    requires Shows(dom.lightbox, Portfolio[8])
    ensures var s := Site(InitialState.(currentLightboxIndex := 8), dom, map[]);
      && LightboxConsistent(s)
      && !LightboxConsistent(FilterPortfolio(s, "photo"))
      && FilterPortfolio(s, "photo").state.currentLightboxIndex
           >= |FilterPortfolio(s, "photo").state.filteredPortfolio|
  {
    PortfolioComposition();
  }
}

=== FILE: site.dfy ===
/** The module-level `State` record (main.js:118-125), the parts of the page
    the core writes to, and the browser's local storage, bundled as one
    immutable `Site` value that every transition maps to a new one. */
module Site {
  import opened Wrappers
  import opened Catalog

  /** Message key to display string, one table per language. */
  type Messages = map<string, string>
  /** Language code to that language's messages (`State.translations`). */
  type Translations = map<string, Messages>
  /** `localStorage`: string keys to string values. */
  type Storage = map<string, string>

  const DefaultLanguage := "fr"
  const DefaultTheme := "light"
  const ThemeStorageKey := "ofe-theme"
  const LanguageStorageKey := "ofe-language"

  datatype State = State(
    currentLanguage: string,
    currentTheme: string,
    translations: Translations,
    currentFilter: string,
    currentLightboxIndex: int,
    filteredPortfolio: seq<MediaItem>)

  /** The state the script starts from. */
  const InitialState := State(DefaultLanguage, DefaultTheme, map[], "all", 0, Portfolio)

  /** `#lightbox-image`: its source, alt text and whether it is displayed. */
  datatype ImageElement = ImageElement(src: string, alt: string, shown: bool)

  /** `#lightbox-video`: its source, whether it is displayed, and whether it
      is playing (the abstract effect of `play()` / `pause()`). */
  datatype VideoElement = VideoElement(src: string, shown: bool, playing: bool)

  /** `#lightbox`: `active` is its `active` class, the "open" flag. */
  datatype Lightbox = Lightbox(active: bool, image: ImageElement, video: VideoElement)

  /** An element carrying `data-i18n` (text) and/or `data-i18n-placeholder`. */
  datatype I18nElement = I18nElement(
    textKey: Option<string>, text: string,
    placeholderKey: Option<string>, placeholder: string)

  /** A `.filter-btn` with its `data-filter` value and `active` class. */
  datatype FilterButton = FilterButton(filter: string, active: bool)

  /** The parts of the document the core writes: the root element's `lang`,
      `dir` and `data-theme`, the theme toggle's `aria-label`, the document
      title, whether body scrolling is locked (`overflow: hidden`), the
      translatable elements, the filter buttons and the lightbox. */
  datatype Dom = Dom(
    lang: string,
    dir: string,
    dataTheme: string,
    themeToggleLabel: string,
    title: string,
    scrollLocked: bool,
    elements: seq<I18nElement>,
    filterButtons: seq<FilterButton>,
    lightbox: Lightbox)

  datatype Site = Site(state: State, dom: Dom, storage: Storage)

  /** `localStorage.getItem(key)`: null when the key was never set. */
  function GetItem(storage: Storage, key: string): (v: Option<string>)
    ensures v.Some? <==> key in storage
    ensures v.Some? ==> v.value == storage[key]
  {
    if key in storage then Some(storage[key]) else None
  }

  /** The view index is never negative: it starts at 0 and only
      `openLightbox` writes it, after its range guard. */
  predicate IndexWellFormed(s: Site) {
    s.state.currentLightboxIndex >= 0
  }

  /** The lightbox displays `item`: a photo in the image element with the
      video hidden and paused, or a video playing from its source with the
      image hidden. */
  predicate Shows(lb: Lightbox, item: MediaItem) {
    match item.kind
    case Photo =>
      lb.image == ImageElement(item.src, item.alt, true) && !lb.video.shown && !lb.video.playing
    case Video =>
      lb.video == VideoElement(item.src, true, true) && !lb.image.shown
  }

  /** While the lightbox is open its index is inside the current view and it
      displays the entry at that index. */
  predicate LightboxConsistent(s: Site) {
    var i := s.state.currentLightboxIndex;
    var view := s.state.filteredPortfolio;
    s.dom.lightbox.active ==> 0 <= i < |view| && Shows(s.dom.lightbox, view[i])
  }
}

=== FILE: startup.dfy ===
/** The `DOMContentLoaded` start-up sequence (main.js:131-149): load the
    translations, initialise theme and language, render the services grid
    (which translates the page), then render the portfolio and bind the
    event listeners. Everything runs inside one `try`, so a step that
    throws skips every later step. */
module Startup {
  import opened Wrappers
  import opened JsText
  import opened Site
  import opened Theme
  import opened I18n

  /** `Ready`: every step ran, so the filter buttons, lightbox controls,
      theme toggle, keyboard handler and contact form are live. `Aborted`:
      a step threw and the listeners were never bound. */
  datatype Outcome = Ready(site: Site) | Aborted(site: Site, error: string)

  /** The page as `applyLanguage` hands it to the translation step: the
      starting page with the prepared theme, `lang` and `dir` in place. */
  function PreparedPage(dom: Dom, r: Site): Dom {
    dom.(lang := r.dom.lang, dir := r.dom.dir,
         dataTheme := r.state.currentTheme,
         themeToggleLabel := ToggleLabel(r.state.currentTheme))
  }

  /** `loadTranslations`, `initializeTheme` and `initializeLanguage`. The
      theme is the saved one, else `dark` on a dark-preferring system, else
      the starting one; the language is the saved one when it is non-empty
      and its table loaded, else the starting one. Filter and lightbox state
      are untouched. */
  function Prepare(s0: Site, fetch: string -> FetchOutcome, prefersDark: bool): (r: Site)
    ensures r.state.translations == LoadTranslations(s0.state.translations, fetch)
    ensures var saved := GetItem(s0.storage, ThemeStorageKey);
      r.state.currentTheme ==
        if Truthy(saved) then saved.value else if prefersDark then "dark" else s0.state.currentTheme
    ensures var saved := GetItem(s0.storage, LanguageStorageKey);
      r.state.currentLanguage ==
        if Truthy(saved) && saved.value in r.state.translations then saved.value
        else s0.state.currentLanguage
    ensures r.state == s0.state.(translations := r.state.translations,
                                 currentTheme := r.state.currentTheme,
                                 currentLanguage := r.state.currentLanguage)
    ensures ThemeSynced(r)
    ensures r.state.currentLanguage in r.state.translations ==>
      && GetItem(r.storage, LanguageStorageKey) == Some(r.state.currentLanguage)
      && r.dom.lang == r.state.currentLanguage
      && (r.dom.dir == "rtl" <==> r.state.currentLanguage == "ar")
      && (r.dom.dir == "ltr" <==> r.state.currentLanguage != "ar")
      && TranslatedFrom(PreparedPage(s0.dom, r), r.dom, r.state.translations[r.state.currentLanguage])
    // with no table for the language, only the theme reaches the page, and
    // the saved language is left as it was
    ensures r.state.currentLanguage !in r.state.translations ==>
      && r.dom == s0.dom.(dataTheme := r.state.currentTheme,
                          themeToggleLabel := ToggleLabel(r.state.currentTheme))
      && GetItem(r.storage, LanguageStorageKey) == GetItem(s0.storage, LanguageStorageKey)
    // the only keys written are `ofe-theme` and, for a loaded language, `ofe-language`
    ensures r.storage.Keys == s0.storage.Keys + {ThemeStorageKey}
      + (if r.state.currentLanguage in r.state.translations then {LanguageStorageKey} else {})
    ensures forall k | k in s0.storage && k != ThemeStorageKey && k != LanguageStorageKey ::
      k in r.storage && r.storage[k] == s0.storage[k]
  {
    var s1 := s0.(state := s0.state.(translations := LoadTranslations(s0.state.translations, fetch)));
    var s2 := InitializeTheme(s1, prefersDark);
    var s3 := InitializeLanguage(s2);
    assert GetItem(s3.storage, ThemeStorageKey) == GetItem(s2.storage, ThemeStorageKey);
    assert GetItem(s2.storage, LanguageStorageKey) == GetItem(s0.storage, LanguageStorageKey);
    s3
  }

  /** The sequence as written: `renderServices` calls `applyTranslations`,
      which throws when the current language has no loaded table. */
  function StartAsWritten(s0: Site, fetch: string -> FetchOutcome, prefersDark: bool): (r: Outcome)
    ensures var p := Prepare(s0, fetch, prefersDark);
      r.Aborted? <==> p.state.currentLanguage !in p.state.translations
    // the page is already translated by then, so the step either throws or
    // changes nothing
    ensures r.site == Prepare(s0, fetch, prefersDark)
  {
    var s := Prepare(s0, fetch, prefersDark);
    if s.state.currentLanguage in s.state.translations then
      TranslatedIsFixed(PreparedPage(s0.dom, s), s.dom, s.state.translations[s.state.currentLanguage]);
      AsWrittenOutcome(s)
    else
      AsWrittenOutcome(s)
  }

  /** The outcome of `renderServices`'s translation step on a prepared site. */
  function AsWrittenOutcome(s: Site): Outcome {
    match ApplyTranslations(s)
    case Failure(e) => Aborted(s, e)
    case Success(t) => Ready(t)
  }

  /** As written, start-up aborts exactly when some language file fails to
      load while neither the starting language nor the saved one is `en`:
      the fallback table holds only `en`, the default language `fr` stays
      current, `applyLanguage('fr')` returns without effect, and the
      translation step of `renderServices` then reads a key of `undefined`. */
  lemma {:induction false} StartAsWrittenAbortsIff(
    s0: Site, fetch: string -> FetchOutcome, prefersDark: bool)
    requires s0.state.currentLanguage in Languages
    ensures StartAsWritten(s0, fetch, prefersDark).Aborted? <==>
      && !AllLoaded(Languages, fetch)
      && s0.state.currentLanguage != "en"
      && GetItem(s0.storage, LanguageStorageKey) != Some("en")
  {
    var s1 := s0.(state := s0.state.(translations := LoadTranslations(s0.state.translations, fetch)));
    var s2 := InitializeTheme(s1, prefersDark);
    assert GetItem(s2.storage, LanguageStorageKey) == GetItem(s0.storage, LanguageStorageKey);
    assert s2.state.translations == s1.state.translations;
    assert s2.state.currentLanguage == s0.state.currentLanguage;
    assert Languages[0] == "en" && Languages[1] == "ar" && Languages[2] == "fr";
  }

  /** A first visit (nothing saved) on which one language file fails to
      load never binds the site's event listeners. */
  lemma FirstVisitWithFailedFetchAborts(dom: Dom, prefersDark: bool)
    ensures StartAsWritten(Site(InitialState, dom, map[]),
                           l => if l == "ar" then Failed else Loaded(map[]),
                           prefersDark).Aborted?
  {
    var fetch: string -> FetchOutcome := l => if l == "ar" then Failed else Loaded(map[]);
    assert Languages[1] == "ar";
    assert !AllLoaded(Languages, fetch);
    StartAsWrittenAbortsIff(Site(InitialState, dom, map[]), fetch, prefersDark);
  }

  /** The sequence with the translation step guarded: a missing table leaves
      the page's text as it was, and start-up always goes on to bind the
      listeners, with the theme resolved and recorded everywhere. */
  function Start(s0: Site, fetch: string -> FetchOutcome, prefersDark: bool): (r: Outcome)
    ensures r.Ready?
    ensures ThemeSynced(r.site)
    ensures r.site.state.translations == LoadTranslations(s0.state.translations, fetch)
    // the guarded and the as-written start-ups differ only in Ready and Aborted
    ensures r.site == Prepare(s0, fetch, prefersDark)
    ensures r.site == StartAsWritten(s0, fetch, prefersDark).site
  {
    var s := Prepare(s0, fetch, prefersDark);
    if s.state.currentLanguage in s.state.translations then
      TranslatedIsFixed(PreparedPage(s0.dom, s), s.dom, s.state.translations[s.state.currentLanguage]);
      Ready(ApplyTranslationsGuarded(s))
    else
      Ready(ApplyTranslationsGuarded(s))
  }

  /** The guard changes nothing where the sequence as written completes. */
  lemma StartAgreesWhereAsWrittenCompletes(s0: Site, fetch: string -> FetchOutcome, prefersDark: bool)
    ensures StartAsWritten(s0, fetch, prefersDark).Ready? ==>
      Start(s0, fetch, prefersDark) == StartAsWritten(s0, fetch, prefersDark)
  {
  }

  /** With the guard, a failed load on a first visit still ends ready, on
      the fallback table, with the theme resolved and saved. `fr` stays
      current and has no table, so the page keeps its built-in text: only
      the root's theme and the toggle's label change. */
  lemma FirstVisitWithFailedFetchStarts(dom: Dom, prefersDark: bool)
    ensures var r := Start(Site(InitialState, dom, map[]),
                           l => if l == "ar" then Failed else Loaded(map[]),
                           prefersDark);
      && r.Ready?
      && r.site.state.translations == FallbackTranslations
      && r.site.state.currentLanguage == DefaultLanguage
      && r.site.state.currentTheme == (if prefersDark then "dark" else "light")
      && r.site.dom == dom.(dataTheme := r.site.state.currentTheme,
                            themeToggleLabel := ToggleLabel(r.site.state.currentTheme))
  {
    var fetch: string -> FetchOutcome := l => if l == "ar" then Failed else Loaded(map[]);
    assert Languages[1] == "ar";
    assert !AllLoaded(Languages, fetch);
  }
}

=== FILE: theme.dfy ===
/** The theme preference: `initializeTheme`, `applyTheme` and `toggleTheme`
    (main.js:261-289). The saved value under `ofe-theme` wins, then the
    system's dark-mode hint, then the theme already in the state. */
module Theme {
  import opened Wrappers
  import opened JsText
  import opened Site

  /** The toggle button's `aria-label` names the theme it switches to. */
  function ToggleLabel(theme: string): string {
    if theme == "dark" then "Switch to light mode" else "Switch to dark mode"
  }

  /** The state's theme is the one on the root element, in storage and
      described by the toggle's label. */
  predicate ThemeSynced(s: Site) {
    && s.dom.dataTheme == s.state.currentTheme
    && GetItem(s.storage, ThemeStorageKey) == Some(s.state.currentTheme)
    && s.dom.themeToggleLabel == ToggleLabel(s.state.currentTheme)
  }

  /** `applyTheme(theme)`: makes `theme` current everywhere it is recorded
      and changes nothing else. */
  function ApplyTheme(s: Site, theme: string): (r: Site)
    ensures r.state.currentTheme == theme && ThemeSynced(r)
    ensures r.state == s.state.(currentTheme := theme)
    ensures r.dom == s.dom.(dataTheme := theme, themeToggleLabel := r.dom.themeToggleLabel)
    ensures r.storage.Keys == s.storage.Keys + {ThemeStorageKey}
    ensures forall k | k in s.storage && k != ThemeStorageKey :: r.storage[k] == s.storage[k]
  {
    Site(s.state.(currentTheme := theme),
         s.dom.(dataTheme := theme, themeToggleLabel := ToggleLabel(theme)),
         s.storage[ThemeStorageKey := theme])
  }

  /** `toggleTheme()`: `light` becomes `dark`, and every other value
      (including a saved theme the site does not know) becomes `light`. */
  function ToggleTheme(s: Site): (r: Site)
    ensures r.state.currentTheme == "light" || r.state.currentTheme == "dark"
    ensures r.state.currentTheme == "dark" <==> s.state.currentTheme == "light"
    ensures ThemeSynced(r)
    ensures r.state == s.state.(currentTheme := r.state.currentTheme)
    // only what `applyTheme` writes changes: other storage keys and the rest of the page stay
    ensures r == ApplyTheme(s, r.state.currentTheme)
  {
    ApplyTheme(s, if s.state.currentTheme == "light" then "dark" else "light")
  }

  /** On `light` and `dark`, toggling twice restores a synced site exactly. */
  lemma ToggleInvolution(s: Site)
    requires s.state.currentTheme == "light" || s.state.currentTheme == "dark"
    requires ThemeSynced(s)
    ensures ToggleTheme(ToggleTheme(s)) == s
  {
    var r := ToggleTheme(ToggleTheme(s));
    assert r.storage == s.storage;
  }

  /** Whatever the starting theme, after the first toggle the site alternates
      between two states. */
  lemma ToggleEventuallyAlternates(s: Site)
    ensures ToggleTheme(ToggleTheme(ToggleTheme(s))) == ToggleTheme(s)
  {
    ToggleInvolution(ToggleTheme(s));
  }

  /** `initializeTheme(prefersDark)`: picks the saved theme when it is a
      non-empty string, else `dark` when the system prefers a dark scheme,
      else keeps the state's theme, and applies (and so persists) the pick. */
  function InitializeTheme(s: Site, prefersDark: bool): (r: Site)
    ensures var saved := GetItem(s.storage, ThemeStorageKey);
      && (Truthy(saved) ==> r.state.currentTheme == saved.value)
      && (!Truthy(saved) && prefersDark ==> r.state.currentTheme == "dark")
      && (!Truthy(saved) && !prefersDark ==> r.state.currentTheme == s.state.currentTheme)
    ensures ThemeSynced(r)
    ensures r.state == s.state.(currentTheme := r.state.currentTheme)
    ensures r == ApplyTheme(s, r.state.currentTheme)
  {
    var saved := GetItem(s.storage, ThemeStorageKey);
    var theme :=
      if Truthy(saved) then saved.value
      else if prefersDark then "dark"
      else s.state.currentTheme;
    ApplyTheme(s, theme)
  }

  /** At start-up (the state still holding the default `light`) the resolved
      theme is the saved one, else `dark` on a dark-preferring system, else
      `light`; it is persisted under `ofe-theme` straight away. */
  lemma StartupThemeResolution(dom: Dom, storage: Storage, prefersDark: bool)
    ensures var r := InitializeTheme(Site(InitialState, dom, storage), prefersDark);
      var theme := r.state.currentTheme;
      && theme == (if ThemeStorageKey in storage && storage[ThemeStorageKey] != ""
                   then storage[ThemeStorageKey]
                   else if prefersDark then "dark" else "light")
      && ThemeStorageKey in r.storage && r.storage[ThemeStorageKey] == theme
  {
  }

  /** Initialising twice is initialising once: the first run persists its
      pick, which the second run then reads back. */
  lemma InitializeThemeIdempotent(s: Site, prefersDark: bool)
    ensures InitializeTheme(InitializeTheme(s, prefersDark), prefersDark) == InitializeTheme(s, prefersDark)
  {
    var r := InitializeTheme(s, prefersDark);
    var r2 := InitializeTheme(r, prefersDark);
    assert r2.storage == r.storage;
  }
}

=== FILE: walkthrough.dfy ===
/** Filtering and navigation together on the shipped catalog. */
module Walkthrough {
  import opened Catalog
  import opened Site
  import opened PortfolioFilter
  import opened LightboxNav

  /** Filter to videos, open the first, and step forward: the lightbox
      moves to the second video, and four steps from the first come back
      round to it. */
  lemma VideoViewWalk(s: Site)
    ensures var v := Open(FilterPortfolio(s, "video"), 0);
      && v.state.filteredPortfolio == Portfolio[6..]
      && v.state.currentLightboxIndex == 0
      && Next(v).state.currentLightboxIndex == 1
      && Shows(Next(v).dom.lightbox, Portfolio[7])
      && NextTimes(v, 4).state == v.state
  {
    PortfolioComposition();
    var v := Open(FilterPortfolio(s, "video"), 0);
    NextTimesWraps(v, 4);
  }
}

=== FILE: wrappers.dfy ===
/** Option and Result, the two failure-carrying shapes the model needs:
    `localStorage.getItem` answers null or a string, and a step that can
    throw answers a value or the error it raised. */
module Wrappers {

  datatype Option<+T> = None | Some(value: T)

  datatype Result<+R, +E> = Success(value: R) | Failure(error: E)
}
